=== FILE: README.md ===
# A verified model of the resource service

The service keeps one collection of JSON records in a single data file and
serves it over HTTP:

- `GET /resource` returns the whole collection.
- `POST /resource` appends the request body as a new record.
- `PUT /resource/:id` merges the body into the first record with that id.
- `DELETE /resource/:id` removes every record with that id.

Every mutation reads the whole document, changes it in memory and writes
the whole document back. The exception is an update that finds no matching
record, which writes nothing; a read never writes.

This project models that core as pure functions in Dafny:

- the JSON values the service handles (`json.dfy`);
- the three mutations as transitions from one collection to the next
  (`collection.dfy`);
- the store, with the data file abstracted to a value that says what a read
  would parse and whether a write would succeed (`store.dfy`);
- JavaScript's `parseInt` as the item routes apply it to the URL
  (`parsing.dfy`);
- the route table and the `split('/')` that extracts the id (`routing.dfy`);
- the request handler as one total function
  `Dispatch(verb, url, body, storage)` that returns the response and the
  storage after the request (`dispatcher.dfy`);
- concrete request sequences the service is expected to handle
  (`scenarios.dfy`).

`wrappers.dfy` holds `Option` and `Result`. `decimal.dfy` holds digit values
and the decimal rendering of naturals.

Behaviour of the code that is easy to miss:

- **Record shape.** Records need not be objects: POST stores any parsed
  JSON body, with no check of its shape or of `id` uniqueness, so collection
  elements are arbitrary JSON values. Only an object whose `id` field is a number
  equal to the parsed id is matched, which is JavaScript's `===`.
- **Id parsing.** The id segment of the URL goes through `parseInt` with no
  radix. That skips leading white space, takes
  a sign, reads hexadecimal after a `0x` prefix, ignores trailing text, and
  gives `NaN` (here `None`) when no digit is found. A `NaN` id never matches
  anything.
- **Null records.** Reading `.id` of a `null` record throws a `TypeError`.
  `findIndex` throws when a null comes before the first match. `filter`
  throws when there is any null at all. Both surface as 500. Because POST
  does not check the body, a POSTed `null` makes every later DELETE fail
  (`Dispatcher.PostedNullBreaksDelete`).
- **Non-array document.** If the data file parses to something that is not
  an array, `push`, `findIndex` and `filter` are not functions on it. Every
  mutation then fails with 500, while GET still returns the document with
  200.
- **Write failures.** On a readable array without null records, a PUT
  whose id matches nothing performs no write. It therefore answers 200 even
  when the file could not be written. With a null record before any match,
  `findIndex` throws, and with a document that is not an array nothing can
  be searched; both answer 500.
- **Spread of a non-object patch.** The merge `{ ...record, ...patch }`
  copies an object patch's fields. An array or string patch is copied under
  the decimal index keys `"0"`, `"1"`, and so on. Null, boolean and number
  patches add nothing. The model does all of this instead of excluding such
  patches.

## Model

| member | source | states |
|---|---|---|
| Json.Spread | server.js:38 | what `...v` copies: an object's own fields; an array's elements and a string's characters under their decimal index keys; nothing for null, booleans and numbers |
| Json.Indexed | server.js:38 | the spread of an array has exactly the keys `"0"` to the last index, and each key maps to the element at that index |
| Json.Chars | server.js:38 | a string is read index by index as one-character strings, one per character |
| Json.Merge | server.js:38 | the merged record has exactly the keys of either side; each key the patch has takes the patch's value; each key only the record has keeps the record's value |
| Json.MergeIdempotent | server.js:38 | applying the same patch a second time changes nothing |
| Json.MergeEmptyPatch | server.js:38 | a patch that spreads to nothing (null, a boolean, a number, `{}`, `[]`, `""`) leaves the record as it was |
| Json.MergeObjects | server.js:38 | for two objects the merge is the map union with the patch winning, and every field the patch does not mention is kept |
| Collection.Matches | server.js:36 | `resource.id === id`: only an object whose `id` field is the number equal to a parsed, non-`NaN` id matches; a missing `id`, an `id` of another JSON type and a `NaN` id never match |
| Collection.Faults | server.js:36 | reading `.id` of an element throws exactly when the element is null |
| Collection.MatchesAtMostOneId | server.js:36 | a record matches at most one id; a `NaN` id matches no record; a null record, on which `.id` throws, matches no id |
| Collection.Append | server.js:23-24 | create grows the collection by one, keeps every earlier element in place, and puts the new record last |
| Collection.FindFrom | server.js:36 | `findIndex` stops at the first element that matches or is null; every element before it neither matches nor throws; with no stop, no element matches or throws |
| Collection.Update | server.js:35-40 | update succeeds without writing exactly when no element matches and none is null; a write replaces a first match with the merge; a `NaN` id never writes |
| Collection.UpdateChangesOnlyFirstMatch | server.js:36-38 | when `i` is the first match, the written collection has the same length, holds the merge at `i`, and holds the old element at every other position |
| Collection.UpdateThrows | server.js:36 | update throws exactly when a null element comes before any matching element |
| Collection.RemoveAll | server.js:51 | no kept element has the id, and every kept element comes from the input |
| Collection.RemoveAllCounts | server.js:51 | every occurrence of a matching record is removed, including duplicates; every occurrence of any other record is kept |
| Collection.RemoveAllAppend | server.js:51 | filtering distributes over concatenation, so kept records keep their original relative order |
| Collection.RemoveAllUnchanged | server.js:51 | removal returns the collection unchanged if and only if no element carries the id |
| Collection.RemoveAllIdempotent | server.js:51 | removing an id twice gives the same collection as removing it once |
| Collection.Delete | server.js:50-52 | delete always writes unless it throws; it throws exactly when some element is null; it writes the filtered collection |
| Collection.DeleteIdempotent | server.js:50-52 | after a delete has written, deleting the same id again writes the same collection |
| Collection.DeleteAbsentIsNoop | server.js:50-52 | deleting an id that no element carries, from a collection in which no element is null, writes back the collection unchanged |
| Store.Read | server.js:10-18 | read succeeds exactly when the file parses, and returns the parsed document whatever JSON it is |
| Store.Load | server.js:23-24 | a mutation gets the records exactly when the document is an array; otherwise it gets `ReadFailed` when the file could not be read and `TypeError` when the document is not an array |
| Store.Commit | server.js:37-40 | a collection step succeeds exactly when it keeps the collection or writes to a writable file; a success keeps the writability, and a success that changed the storage wrote the step's collection; a throw fails with `TypeError`, a refused write with `WriteFailed` |
| Store.Save | server.js:25 | a write succeeds exactly when the file is writable, and the file then holds the whole new collection |
| Store.Create | server.js:21-30 | create succeeds exactly when the document is an array and the file is writable; the file then holds the old records with the new one appended |
| Store.Update | server.js:33-45 | with no match and no null, update succeeds and writes nothing; with a first match it saves the collection with that record merged; a null before any match gives `TypeError`; a non-array document fails; a success that changed the storage had a matching record |
| Store.Delete | server.js:48-57 | delete succeeds exactly when the document is an array without nulls and the file is writable; the file then holds the filtered collection |
| Store.DeleteIdempotent | server.js:48-57 | repeating a successful delete succeeds and leaves the storage as the first delete did |
| Store.UpdateAbsentIsNoop | server.js:35-40 | on an array in which no record carries the id and none is null, an update succeeds with the storage unchanged, even when it could not be written |
| Parsing.TrimStart | server.js:116 | the result is a suffix of the input, everything removed is JavaScript white space, and the result does not start with white space |
| Parsing.DigitPrefix | server.js:116 | the result is the longest prefix made of digits of the radix |
| Parsing.ParseInt | server.js:116 | a parsed value implies a decimal digit right after the leading white space and the optional sign |
| Parsing.ParseIntIntToString | server.js:116 | `parseInt` reads back any integer's decimal text whatever non-digit text follows it, except an `x` after a lone `0` |
| Parsing.ParseIntSkipsSpace | server.js:116 | leading white space does not change the result |
| Parsing.ParseIntNaN | server.js:116 | text with no decimal digit after the white space and sign is `NaN` |
| Parsing.ParseIntDecimal | server.js:116 | an optional `+` or `-`, a decimal digit run (leading zeros allowed) and text that does not go on with a digit read as the signed decimal value of the run, unless the text opens with `0x` |
| Parsing.ParseIntHex | server.js:116 | an optional sign and a `0x` or `0X` prefix followed by a hexadecimal digit run read as the signed hexadecimal value of the run |
| Parsing.ParseIntTrailingExample | server.js:116 | `"12abc"` parses to 12 |
| Parsing.ParseIntNegativeExample | server.js:146 | `"-7"` parses to -7 |
| Parsing.ParseIntEmptyHex | server.js:116 | an optional sign and a `0x` or `0X` prefix that no hexadecimal digit follows is `NaN`, although its `0` is a decimal digit |
| Parsing.ParseIntHexExample | server.js:146 | `"0x1F"` parses to 31 |
| Parsing.ParseIntBareHexExample | server.js:146 | `"0x"` is `NaN` |
| Routing.Split | server.js:116 | `split('/')` returns at least one piece, and no piece contains `/` |
| Routing.JoinSplit | server.js:116 | joining the pieces with `/` gives back the URL |
| Routing.SplitJoin | server.js:116 | splitting the join of `/`-free pieces gives back the pieces |
| Routing.IdOf | server.js:116 | the id is `parseInt` of the third `/`-separated piece of the URL, and `NaN` when there is no third piece |
| Routing.IdOfItemUrl | server.js:116 | the id of `/resource/<piece><tail>` is `parseInt(piece)` when the piece has no `/` and the tail is empty or starts with `/` |
| Routing.IdOfIntegerUrl | server.js:146 | the item URL of any integer carries that integer as its id |
| Routing.RouteOf | server.js:66-163 | GET and POST are served exactly for the URL `/resource`; PUT and DELETE exactly for URLs starting with `/resource/`; the item routes carry the URL's id |
| Routing.UnmatchedExactly | server.js:161-163 | a request selects no endpoint exactly when it is not GET or POST on `/resource` and not PUT or DELETE on a `/resource/` URL |
| Dispatcher.Settle | server.js:95-102 | a resolved store operation answers with the given success response and keeps the new storage; a rejected one answers 500 "Internal Server Error" with the storage as it was |
| Dispatcher.Dispatch | server.js:61-165 | the status is one of 200, 201, 400, 404, 500; an unmatched route gives 404 "Endpoint not found" with the storage unchanged; a POST or PUT body that failed to parse gives 400 "Invalid JSON data" with the storage unchanged; 500 always carries "Internal Server Error" with the storage unchanged; only a created, updated or deleted answer can change the storage; 201 is answered exactly for a parsed POST body on a writable array; GET answers 500 exactly when the document cannot be read; a POST or PUT with a parsed body and every DELETE answer 500 exactly when the store operation rejects |
| Dispatcher.GetIsReadOnly | server.js:67-83 | GET never changes the storage and ignores the body; it answers 200 exactly for `/resource` with a readable document, and then returns the whole document |
| Dispatcher.PostAppends | server.js:84-107 | a POST to a writable array answers 201; a following GET returns the old collection with the body appended at the end |
| Dispatcher.PutMergesFirstMatch | server.js:113-137 | on a writable array, a PUT whose id first matches record `i` answers 200 and stores the collection with only record `i` merged |
| Dispatcher.PutWithoutMatchKeepsStore | server.js:113-137 | on a readable array without null records, a PUT whose id matches nothing answers 200 and leaves the storage as it was, writable or not |
| Dispatcher.PutWithNaNIdKeepsStore | server.js:116-124 | a PUT whose id segment is `NaN` never changes the storage |
| Dispatcher.DeleteIsIdempotent | server.js:143-155 | repeating a successful DELETE gives the same answer and no further change |
| Dispatcher.DeleteRemovesEveryMatch | server.js:143-155 | a DELETE on a writable array without nulls answers 200 and stores exactly the records without the URL's id |
| Dispatcher.DeleteWithoutMatchKeepsStore | server.js:143-155 | on a writable array without null records, a DELETE of an id that nothing carries answers 200 and leaves the storage equal to what it was |
| Dispatcher.UnreadableStorage | server.js:70-78 | with an unreadable document no request changes the storage, and every request that reaches the store is answered 500 |
| Dispatcher.UnwritableStorage | server.js:94-154 | with an unwritable file no request changes the storage; every DELETE and every POST with a parsed body is answered 500; a PUT with a parsed body is answered 500 exactly when the document is not an array or holds a matching or null record before its scan ends |
| Dispatcher.PostedNullBreaksDelete | server.js:92-94 | after a POST of `null` to a writable array, every DELETE is answered 500 |
| Scenarios.MergeScenario | server.js:113-137 | updating `{id:1,name:"a",x:1}` with `{name:"b"}` stores `{id:1,name:"b",x:1}` |
| Scenarios.DeleteDuplicatesScenario | server.js:143-155 | deleting id 1 from `[{id:1},{id:1},{id:2}]` stores `[{id:2}]` |
| Scenarios.MissingIdScenario | server.js:113-137 | updating id 999 when no record has it leaves the storage unchanged |
| Scenarios.MalformedPostScenario | server.js:103-106 | a POST whose body is not JSON answers 400 and stores nothing |
| Scenarios.UnknownMethodScenario | server.js:161-163 | `PATCH /resource` answers 404 "Endpoint not found" |

## Left out

- **Data file I/O.** `fs.promises.readFile` and `writeFile` on `data.json` are
  abstracted to `Store.Storage`. It records the document a read would parse,
  or nothing when the file is missing, unreadable or not valid JSON, and
  whether a write would succeed. A failed write is taken to leave the file
  as it was. A partially written file is not modelled.
- **JSON text.** `JSON.parse` and `JSON.stringify`, including the two-space
  pretty printing, are not modelled. A request body arrives already parsed,
  with `None` meaning the parse threw. A data file that is not valid JSON is
  treated like an unreadable file.
- **Numbers.** A number is the exact value of its literal, as a `real`.
  Rounding to IEEE doubles is not modelled, neither in `JSON.parse` nor in
  `parseInt`, so ids beyond 2^53 compare exactly here and may not in
  JavaScript.
- **Strings.** Characters are Unicode scalar values, not UTF-16 code units.
  A string patch with characters outside the Basic Multilingual Plane
  spreads into fewer keys here than in JavaScript.
- **Key order.** Object key order is not modelled. Objects are maps, so the
  order in which `JSON.stringify` writes keys is lost.
- **Body streaming.** Accumulation of the body through `req.on('data')` and
  `req.on('end')` is not modelled. The complete body is an input.
- **Concurrency.** Concurrent requests, and the lost update between two
  interleaved read-modify-write operations, are not modelled. Each
  `Dispatch` is one whole request against one storage state. The code has no
  serialization mechanism to verify.
- **Process setup and headers.** `server.listen`, the port constant, console
  logging and the `Content-Type` header are not modelled.

=== FILE: collection.dfy ===
/** The store's three mutations as pure transitions of the loaded collection
    (server.js:21-57), with file I/O taken out: each function gets the array
    `read()` returned and says what `writeFile` would be given, if anything. */
module Collection {
  import opened Wrappers
  import opened Json

  /** `resource.id === id` for a resource that is not null: only an object
      whose `id` field is a number equal to a parsed (non-NaN) id matches.
      A missing `id`, an `id` of another JSON type and a `NaN` id never match. */
  predicate Matches(r: Value, id: Option<int>)
  {
    && id.Some?
    && r.Obj?
    && "id" in r.fields
    && r.fields["id"] == Number(id.value as real)
  }

  /** Reading `.id` of a null element throws a `TypeError`; no other JSON value does. */
  predicate Faults(r: Value)
  {
    r.Null?
  }

  /** A record answers to at most one id, a `NaN` id matches nothing, and a
      record that makes `.id` throw matches nothing. */
  lemma MatchesAtMostOneId(r: Value, a: Option<int>, b: Option<int>)
    ensures Matches(r, a) && Matches(r, b) ==> a == b
    ensures !Matches(r, None)
    ensures Faults(r) ==> !Matches(r, a)
  {
  }

  /** A scan over `data[lo..hi]` goes past every element: none throws and none matches. */
  ghost predicate Passes(data: seq<Value>, id: Option<int>, lo: nat, hi: nat)
    requires lo <= hi <= |data|
  {
    forall j :: lo <= j < hi ==> !Faults(data[j]) && !Matches(data[j], id)
  }

  /** `i` is the index `findIndex` reports: the first match, reached without a throw. */
  ghost predicate FirstMatch(data: seq<Value>, id: Option<int>, i: int)
  {
    0 <= i < |data| && Matches(data[i], id) && Passes(data, id, 0, i)
  }

  /** `create`: `data.push(newResource)` (server.js:23-24). */
  function Append(data: seq<Value>, record: Value): (d: seq<Value>)
    ensures |d| == |data| + 1
    ensures d[..|data|] == data
    ensures d[|data|] == record
  {
    data + [record]
  }

  /** What `findIndex` ends with. */
  datatype Search = Found(index: nat) | Missing | Fault(index: nat)

  /** `findIndex` started at `from`: the predicate is applied left to right
      and the scan stops at the first element that matches or throws. */
  function FindFrom(data: seq<Value>, id: Option<int>, from: nat): (s: Search)
    requires from <= |data|
    ensures s.Found? ==> from <= s.index < |data| && Matches(data[s.index], id) && Passes(data, id, from, s.index)
    ensures s.Fault? ==> from <= s.index < |data| && Faults(data[s.index]) && Passes(data, id, from, s.index)
    ensures s.Missing? ==> Passes(data, id, from, |data|)
    decreases |data| - from
  {
    if from == |data| then Missing
    else if Faults(data[from]) then Fault(from)
    else if Matches(data[from], id) then Found(from)
    else FindFrom(data, id, from + 1)
  }

  /** How a mutation ends: it threw, it decided not to write, or it writes `data`. */
  datatype Step = Threw | Kept | Wrote(data: seq<Value>)

  /** `update` (server.js:35-40): the first match is replaced by the shallow
      merge of itself and the patch; with no match nothing is written. */
  function Update(data: seq<Value>, id: Option<int>, patch: Value): (s: Step)
    ensures s.Kept? <==> Passes(data, id, 0, |data|)
    ensures s.Wrote? ==> exists i :: FirstMatch(data, id, i) && s.data == data[i := Merge(data[i], patch)]
    ensures id.None? ==> !s.Wrote?
  {
    match FindFrom(data, id, 0)
    case Found(i) => Wrote(data[i := Merge(data[i], patch)])
    case Missing => Kept
    case Fault(_) => Threw
  }

  /** The elements `filter(resource => resource.id !== id)` keeps, in order
      (server.js:51), for a collection without null elements. */
  function RemoveAll(data: seq<Value>, id: Option<int>): (r: seq<Value>)
    ensures forall k :: 0 <= k < |r| ==> !Matches(r[k], id)
    ensures forall k :: 0 <= k < |r| ==> r[k] in data
    decreases |data|
  {
    if |data| == 0 then []
    else
      assert data == [data[0]] + data[1..];
      (if Matches(data[0], id) then [] else [data[0]]) + RemoveAll(data[1..], id)
  }

  /** `delete` (server.js:50-52): `filter` applies its predicate to every
      element, so any null element throws; otherwise the kept elements are
      always written, even when nothing was removed. */
  function Delete(data: seq<Value>, id: Option<int>): (s: Step)
    ensures !s.Kept?
    ensures s.Threw? <==> exists k :: 0 <= k < |data| && Faults(data[k])
    ensures s.Wrote? ==> s.data == RemoveAll(data, id)
  {
    if exists k | 0 <= k < |data| :: Faults(data[k]) then Threw else Wrote(RemoveAll(data, id))
  }

  /** The update replaces exactly one position: the first match becomes the
      merge, and length and every other position are unchanged. */
  lemma UpdateChangesOnlyFirstMatch(data: seq<Value>, id: Option<int>, patch: Value, i: int)
    requires FirstMatch(data, id, i)
    ensures Update(data, id, patch).Wrote?
    ensures |Update(data, id, patch).data| == |data|
    ensures Update(data, id, patch).data[i] == Merge(data[i], patch)
    ensures forall j :: 0 <= j < |data| && j != i ==> Update(data, id, patch).data[j] == data[j]
  {
  }

  /** Every first match is the one the update rewrites. */
  lemma UpdateChangesOnlyFirstMatchAt(data: seq<Value>, id: Option<int>, patch: Value)
    ensures forall i :: FirstMatch(data, id, i) ==> Update(data, id, patch) == Wrote(data[i := Merge(data[i], patch)])
  {
    forall i | FirstMatch(data, id, i) ensures Update(data, id, patch) == Wrote(data[i := Merge(data[i], patch)]) {
      UpdateChangesOnlyFirstMatch(data, id, patch, i);
    }
  }

  /** The update throws exactly when a null element comes before any match:
      `findIndex` never looks past the first match. */
  lemma UpdateThrows(data: seq<Value>, id: Option<int>, patch: Value)
    ensures Update(data, id, patch).Threw? <==> exists i :: 0 <= i < |data| && Faults(data[i]) && Passes(data, id, 0, i)
  {
    match FindFrom(data, id, 0)
    case Found(k) =>
      forall i | 0 <= i < |data| && Faults(data[i]) ensures !Passes(data, id, 0, i) {
        assert k < i;
      }
    case Missing =>
    case Fault(k) =>
  }

  /** Filtering distributes over concatenation: kept elements keep their
      relative order. */
  lemma {:induction false} RemoveAllAppend(a: seq<Value>, b: seq<Value>, id: Option<int>)
    ensures RemoveAll(a + b, id) == RemoveAll(a, id) + RemoveAll(b, id)
    decreases |a|
  {
    if |a| > 0 {
      assert (a + b)[0] == a[0];
      assert (a + b)[1..] == a[1..] + b;
      RemoveAllAppend(a[1..], b, id);
    } else {
      assert a + b == b;
    }
  }

  /** Removal leaves a collection as it was exactly when no element has the id. */
  lemma {:induction false} RemoveAllUnchanged(data: seq<Value>, id: Option<int>)
    ensures RemoveAll(data, id) == data <==> forall k :: 0 <= k < |data| ==> !Matches(data[k], id)
    decreases |data|
  {
    if |data| > 0 {
      RemoveAllUnchanged(data[1..], id);
      if forall k :: 0 <= k < |data| ==> !Matches(data[k], id) {
        assert forall k :: 0 <= k < |data| - 1 ==> !Matches(data[1..][k], id) by {
          forall k | 0 <= k < |data| - 1 ensures !Matches(data[1..][k], id) {
            assert data[1..][k] == data[k + 1];
          }
        }
        assert data == [data[0]] + data[1..];
      }
    }
  }

  /** Removal drops every occurrence of a matching record and keeps every
      occurrence of any other: the result is exactly the non-matching records. */
  lemma {:induction false} RemoveAllCounts(data: seq<Value>, id: Option<int>)
    ensures forall x :: multiset(RemoveAll(data, id))[x] == if Matches(x, id) then 0 else multiset(data)[x]
    decreases |data|
  {
    if |data| > 0 {
      RemoveAllCounts(data[1..], id);
      assert data == [data[0]] + data[1..];
      assert multiset(data) == multiset([data[0]]) + multiset(data[1..]);
    }
  }

  /** Removing an id twice leaves the same collection as removing it once. */
  lemma RemoveAllIdempotent(data: seq<Value>, id: Option<int>)
    ensures RemoveAll(RemoveAll(data, id), id) == RemoveAll(data, id)
  {
    RemoveAllUnchanged(RemoveAll(data, id), id);
  }

  /** The delete step is idempotent: once it has written, a second delete of
      the same id writes the same collection again. */
  lemma DeleteIdempotent(data: seq<Value>, id: Option<int>)
    requires Delete(data, id).Wrote?
    ensures Delete(Delete(data, id).data, id) == Delete(data, id)
  {
    RemoveAllIdempotent(data, id);
  }

  /** Deleting an id no element carries, from a collection without null
      elements, writes back the collection unchanged. */
  lemma DeleteAbsentIsNoop(data: seq<Value>, id: Option<int>)
    requires forall k :: 0 <= k < |data| ==> !Faults(data[k]) && !Matches(data[k], id)
    ensures Delete(data, id) == Wrote(data)
  {
    RemoveAllUnchanged(data, id);
  }
}

=== FILE: decimal.dfy ===
/** Digit characters, digit-string values and the decimal rendering of naturals.
    Shared by `parseInt` (which reads digits) and by object spread (which
    writes array and string indices as decimal property names). */
module Decimal {

  /** The value of `c` as a digit in radix up to 36, as `parseInt` reads digits:
      `0`-`9`, then `a`-`z` (either case) for 10 to 35; 36 for every other character. */
  function DigitVal(c: char): (v: nat)
    ensures v <= 36
    ensures v < 10 <==> '0' <= c <= '9'
  {
    if '0' <= c <= '9' then c as int - '0' as int
    else if 'a' <= c <= 'z' then c as int - 'a' as int + 10
    else if 'A' <= c <= 'Z' then c as int - 'A' as int + 10
    else 36
  }

  /** True when every character of `s` is a digit of the given radix. */
  predicate AllDigits(s: string, radix: nat)
  {
    forall i :: 0 <= i < |s| ==> DigitVal(s[i]) < radix
  }

  /** The number a digit string denotes, most significant digit first. */
  function DigitsValue(s: string, radix: nat): nat
    decreases |s|
  {
    if |s| == 0 then 0 else DigitsValue(s[..|s| - 1], radix) * radix + DigitVal(s[|s| - 1])
  }

  /** The character for a decimal digit. */
  function DigitChar(d: nat): (c: char)
    requires d < 10
    ensures DigitVal(c) == d
  {
    (d + '0' as int) as char
  }

  /** The canonical decimal rendering of `n`: digits only, no leading zero. */
  function NatToString(n: nat): (s: string)
    ensures |s| >= 1
    ensures AllDigits(s, 10)
    ensures s[0] == '0' <==> n == 0
    ensures n >= 10 <==> |s| >= 2
    decreases n
  {
    if n < 10 then [DigitChar(n)] else NatToString(n / 10) + [DigitChar(n % 10)]
  }

  /** Reading back a rendered natural gives the natural. */
  lemma {:induction false} NatToStringValue(n: nat)
    ensures DigitsValue(NatToString(n), 10) == n
    decreases n
  {
    if n >= 10 {
      NatToStringValue(n / 10);
      var s := NatToString(n);
      assert s[..|s| - 1] == NatToString(n / 10);
    }
  }

  /** Distinct naturals have distinct renderings. */
  lemma NatToStringInjective()
    ensures forall m: nat, n: nat :: NatToString(m) == NatToString(n) ==> m == n
  {
    forall m: nat, n: nat | NatToString(m) == NatToString(n)
      ensures m == n
    {
      NatToStringValue(m);
      NatToStringValue(n);
    }
  }
}

=== FILE: dispatcher.dfy ===
/** The request handler (server.js:61-165) as one total function from a
    complete request and the storage to a response and the storage after it.
    The body is given already parsed: `None` when `JSON.parse` threw. */
module Dispatcher {
  import opened Wrappers
  import opened Json
  import opened Store
  import opened Routing
  import Collection

  /** The status code and JSON body written with `res.end`. */
  datatype Response = Response(status: int, body: Value)

  /** A request's response and the storage it leaves behind. */
  datatype Exchange = Exchange(response: Response, store: Storage)

  /** `{ error: text }` */
  function ErrorBody(text: string): Value
  {
    Obj(map["error" := Str(text)])
  }

  /** `{ message: text }` */
  function MessageBody(text: string): Value
  {
    Obj(map["message" := Str(text)])
  }

  const NotFound: Response := Response(404, ErrorBody("Endpoint not found"))
  const InvalidJson: Response := Response(400, ErrorBody("Invalid JSON data"))
  const ServerError: Response := Response(500, ErrorBody("Internal Server Error"))
  const Created: Response := Response(201, MessageBody("Resource created successfully"))
  const Updated: Response := Response(200, MessageBody("Resource updated successfully"))
  const Deleted: Response := Response(200, MessageBody("Resource deleted successfully"))

  /** The `.then`/`.catch` pair after a store mutation: success answers with
      `success` and keeps the new storage; a rejection answers 500 and the
      storage is as it was. */
  function Settle(outcome: Result<Storage, StoreError>, st: Storage, success: Response): Exchange
  {
    match outcome
    case Success(next) => Exchange(success, next)
    case Failure(_) => Exchange(ServerError, st)
  }

  /** Route the request, parse-check the body where one is read, call the
      store and map its outcome to a status. */
  function Dispatch(verb: string, url: string, body: Option<Value>, st: Storage): (x: Exchange)
    ensures x.response.status in {200, 201, 400, 404, 500}
    ensures RouteOf(verb, url).Unmatched? ==> x == Exchange(NotFound, st)
    ensures (RouteOf(verb, url).CreateOne? || RouteOf(verb, url).UpdateOne?) && body.None? ==> x == Exchange(InvalidJson, st)
    ensures x.response.status == 500 ==> x == Exchange(ServerError, st)
    ensures x.store != st ==> x.response in {Created, Updated, Deleted}
    ensures x.store.writable == st.writable
    ensures x.response == Created <==> RouteOf(verb, url).CreateOne? && body.Some? && HoldsArray(st) && st.writable
    ensures RouteOf(verb, url).ListAll? ==> (x.response == ServerError <==> st.file.None?)
    ensures RouteOf(verb, url).CreateOne? && body.Some? ==>
              (x.response == ServerError <==> Create(st, body.value).Failure?)
    ensures RouteOf(verb, url).UpdateOne? && body.Some? ==>
              (x.response == ServerError <==> Update(st, RouteOf(verb, url).id, body.value).Failure?)
    ensures RouteOf(verb, url).DeleteOne? ==>
              (x.response == ServerError <==> Delete(st, RouteOf(verb, url).id).Failure?)
  {
    match RouteOf(verb, url)
    case Unmatched => Exchange(NotFound, st)
    case ListAll =>
      (match Read(st)
       case Success(doc) => Exchange(Response(200, doc), st)
       case Failure(_) => Exchange(ServerError, st))
    case CreateOne =>
      (match body
       case None => Exchange(InvalidJson, st)
       case Some(record) => Settle(Create(st, record), st, Created))
    case UpdateOne(id) =>
      (match body
       case None => Exchange(InvalidJson, st)
       case Some(patch) => Settle(Update(st, id, patch), st, Updated))
    case DeleteOne(id) => Settle(Delete(st, id), st, Deleted)
  }

  /** GET never changes the storage and ignores the body; it answers 200 with
      the whole document exactly when the URL is the collection path and the
      document could be read. */
  lemma GetIsReadOnly(url: string, body: Option<Value>, other: Option<Value>, st: Storage)
    ensures Dispatch("GET", url, body, st).store == st
    ensures Dispatch("GET", url, body, st) == Dispatch("GET", url, other, st)
    ensures Dispatch("GET", url, body, st).response.status == 200 <==> url == CollectionPath && st.file.Some?
    ensures url == CollectionPath && st.file.Some? ==> Dispatch("GET", url, body, st).response.body == st.file.value
  {
  }

  /** A POST of a parsed body to a readable, writable array appends the body
      as the last record, answers 201, and a following GET returns the
      collection with it at the end. */
  lemma PostAppends(record: Value, st: Storage, body: Option<Value>)
    requires HoldsArray(st) && st.writable
    ensures Dispatch("POST", CollectionPath, Some(record), st).response == Created
    ensures Dispatch("POST", CollectionPath, Some(record), st).store.file == Some(Arr(Items(st) + [record]))
    ensures var after := Dispatch("POST", CollectionPath, Some(record), st).store;
            Dispatch("GET", CollectionPath, body, after).response == Response(200, Arr(Items(st) + [record]))
  {
  }

  /** On a writable array, a PUT whose id first matches record `i` answers
      200 and stores the collection with only that record replaced by the
      shallow merge. */
  lemma PutMergesFirstMatch(url: string, patch: Value, st: Storage, i: int)
    requires ItemPrefix <= url
    requires HoldsArray(st) && st.writable
    requires Collection.FirstMatch(Items(st), IdOf(url), i)
    ensures Dispatch("PUT", url, Some(patch), st) ==
      Exchange(Updated, st.(file := Some(Arr(Items(st)[i := Merge(Items(st)[i], patch)]))))
  {
  }

  /** On a readable array without null records, a PUT whose id no record
      carries answers 200 and leaves the storage as it was, even when the
      storage could not be written. */
  lemma PutWithoutMatchKeepsStore(url: string, patch: Value, st: Storage)
    requires ItemPrefix <= url
    requires HoldsArray(st)
    requires forall k :: 0 <= k < |Items(st)| ==> !Collection.Faults(Items(st)[k]) && !Collection.Matches(Items(st)[k], IdOf(url))
    ensures Dispatch("PUT", url, Some(patch), st) == Exchange(Updated, st)
  {
  }

  /** An id segment that `parseInt` reads as `NaN` makes PUT write nothing:
      whatever the answer, the storage is unchanged. */
  lemma PutWithNaNIdKeepsStore(piece: string, tail: string, body: Option<Value>, st: Storage)
    requires '/' !in piece && (|tail| == 0 || tail[0] == '/')
    requires Parsing.ParseInt(piece).None?
    ensures Dispatch("PUT", ItemPrefix + piece + tail, body, st).store == st
  {
    IdOfItemUrl(piece, tail);
    var url := ItemPrefix + piece + tail;
    assert RouteOf("PUT", url) == UpdateOne(None) by {
      assert ItemPrefix <= url;
    }
    UpdateWithoutIdKeepsStore("PUT", url, body, st);
  }

  /** An update route whose id is `NaN` leaves the storage as it was. */
  lemma UpdateWithoutIdKeepsStore(verb: string, url: string, body: Option<Value>, st: Storage)
    requires RouteOf(verb, url) == UpdateOne(None)
    ensures Dispatch(verb, url, body, st).store == st
  {
    match body
    case None =>
    case Some(patch) =>
      var r := Update(st, None, patch);
      assert r.Success? ==> r.value == st;
  }

  /** A DELETE that succeeded can be repeated with the same answer and no
      further change, whatever body either request carried. */
  lemma DeleteIsIdempotent(url: string, body: Option<Value>, other: Option<Value>, st: Storage)
    requires Dispatch("DELETE", url, body, st).response == Deleted
    ensures var once := Dispatch("DELETE", url, body, st);
            Dispatch("DELETE", url, other, once.store) == once
  {
    var id := IdOf(url);
    Store.DeleteIdempotent(st, id);
  }

  /** A DELETE on a writable array without null records answers 200 and
      stores exactly the records whose id is not the URL's id. */
  lemma DeleteRemovesEveryMatch(url: string, body: Option<Value>, st: Storage)
    requires ItemPrefix <= url
    requires HoldsArray(st) && st.writable
    requires forall k :: 0 <= k < |Items(st)| ==> !Collection.Faults(Items(st)[k])
    ensures Dispatch("DELETE", url, body, st) ==
      Exchange(Deleted, st.(file := Some(Arr(Collection.RemoveAll(Items(st), IdOf(url))))))
  {
  }

  /** On a writable array without null records, deleting an id no record
      carries answers 200 and rewrites the storage with the same collection. */
  lemma DeleteWithoutMatchKeepsStore(url: string, body: Option<Value>, st: Storage)
    requires ItemPrefix <= url
    requires HoldsArray(st) && st.writable
    requires forall k :: 0 <= k < |Items(st)| ==> !Collection.Faults(Items(st)[k]) && !Collection.Matches(Items(st)[k], IdOf(url))
    ensures Dispatch("DELETE", url, body, st) == Exchange(Deleted, st)
  {
    Collection.DeleteAbsentIsNoop(Items(st), IdOf(url));
  }

  /** When the document cannot be read, no request changes the storage and
      every request that reaches the store is answered 500. */
  lemma UnreadableStorage(verb: string, url: string, body: Option<Value>, st: Storage)
    requires st.file.None?
    ensures Dispatch(verb, url, body, st).store == st
    ensures Dispatch(verb, url, body, st).response in {NotFound, InvalidJson, ServerError}
    ensures var r := RouteOf(verb, url);
            r.ListAll? || r.DeleteOne? || ((r.CreateOne? || r.UpdateOne?) && body.Some?) ==>
              Dispatch(verb, url, body, st).response == ServerError
  {
  }

  /** When the document cannot be written, no request changes the storage:
      every POST and DELETE that reaches the store is answered 500, and so is
      every PUT that would have to write (or that fails before deciding). */
  lemma UnwritableStorage(verb: string, url: string, body: Option<Value>, st: Storage)
    requires !st.writable
    ensures Dispatch(verb, url, body, st).store == st
    ensures var r := RouteOf(verb, url);
            r.DeleteOne? || (r.CreateOne? && body.Some?) ==> Dispatch(verb, url, body, st).response == ServerError
    ensures var r := RouteOf(verb, url);
            r.UpdateOne? && body.Some? ==>
              (Dispatch(verb, url, body, st).response == ServerError <==>
               !(HoldsArray(st) && Collection.Passes(Items(st), r.id, 0, |Items(st)|)))
  {
  }

  /** POST does not check the shape of its body, so a POSTed `null` is stored
      in a writable array; from then on every DELETE reads `.id` of that null
      and is answered 500. */
  lemma PostedNullBreaksDelete(st: Storage, url: string, body: Option<Value>)
    requires HoldsArray(st) && st.writable
    requires ItemPrefix <= url
    ensures var after := Dispatch("POST", CollectionPath, Some(Null), st).store;
            Dispatch("DELETE", url, body, after) == Exchange(ServerError, after)
  {
    var after := Dispatch("POST", CollectionPath, Some(Null), st).store;
    var data := Items(st) + [Null];
    assert Items(after) == data;
    assert Collection.Faults(data[|data| - 1]);
  }
}

=== FILE: json.dfy ===
/** JSON values as `JSON.parse` produces them, and the object spread
    `{ ...a, ...b }` that the update operation (server.js:38) builds its
    merged record with. */
module Json {
  import opened Decimal

  /** A parsed JSON value. Numbers are kept as the exact value of their
      literal; object key order is not modelled. */
  datatype Value =
    | Null
    | Bool(b: bool)
    | Number(n: real)
    | Str(s: string)
    | Arr(items: seq<Value>)
    | Obj(fields: map<string, Value>)

  /** The property names `"0"`, `"1"`, ... of an indexed value of length `n`. */
  function IndexKeys(n: nat): set<string>
  {
    set i | 0 <= i < n :: NatToString(i)
  }

  /** The own enumerable properties that `...v` copies into an object literal:
      an object's fields; an array's elements and a string's characters under
      their decimal indices; nothing at all for null, booleans and numbers. */
  function Spread(v: Value): (m: map<string, Value>)
    ensures v.Obj? ==> m == v.fields
    ensures v.Arr? ==> m.Keys == IndexKeys(|v.items|)
    ensures v.Arr? ==> forall i :: 0 <= i < |v.items| ==> m[NatToString(i)] == v.items[i]
    ensures v.Str? ==> m.Keys == IndexKeys(|v.s|)
    ensures v.Str? ==> forall i :: 0 <= i < |v.s| ==> m[NatToString(i)] == Str([v.s[i]])
    ensures v.Null? || v.Bool? || v.Number? ==> m == map[]
  {
    match v
    case Obj(fields) => fields
    case Arr(items) => Indexed(items)
    case Str(s) => Indexed(Chars(s))
    case _ => map[]
  }

  /** The elements of a sequence under their decimal indices. */
  function Indexed(items: seq<Value>): (m: map<string, Value>)
    ensures m.Keys == IndexKeys(|items|)
    ensures forall i :: 0 <= i < |items| ==> m[NatToString(i)] == items[i]
  {
    NatToStringInjective();
    map i | 0 <= i < |items| :: NatToString(i) := items[i]
  }

  /** A string as the one-character strings an index into it reads. */
  function Chars(s: string): (c: seq<Value>)
    ensures |c| == |s|
    ensures forall i :: 0 <= i < |s| ==> c[i] == Str([s[i]])
  {
    seq(|s|, i requires 0 <= i < |s| => Str([s[i]]))
  }

  /** `{ ...base, ...patch }`: every property of either, the patch's value
      winning where both have one. */
  function Merge(base: Value, patch: Value): (r: Value)
    ensures r.Obj?
    ensures forall k :: k in r.fields <==> k in Spread(base) || k in Spread(patch)
    ensures forall k :: k in Spread(patch) ==> r.fields[k] == Spread(patch)[k]
    ensures forall k :: k in Spread(base) && k !in Spread(patch) ==> r.fields[k] == Spread(base)[k]
  {
    Obj(Spread(base) + Spread(patch))
  }

  /** Merging an object with an object keeps the base's fields the patch does
      not mention and takes the patch's value for every field it does. */
  lemma MergeObjects(base: map<string, Value>, patch: map<string, Value>)
    ensures Merge(Obj(base), Obj(patch)) == Obj(base + patch)
    ensures forall k :: k in base && k !in patch ==> Merge(Obj(base), Obj(patch)).fields[k] == base[k]
  {
  }

  /** A patch that spreads to nothing (null, a boolean, a number, `{}`, `[]`
      or `""`) leaves an object as it was. */
  lemma MergeEmptyPatch(base: map<string, Value>, patch: Value)
    requires Spread(patch) == map[]
    ensures Merge(Obj(base), patch) == Obj(base)
  {
    assert base + map[] == base;
  }

  /** Applying the same patch twice is the same as applying it once. */
  lemma MergeIdempotent(base: Value, patch: Value)
    ensures Merge(Merge(base, patch), patch) == Merge(base, patch)
  {
    var once := Merge(base, patch);
    assert Spread(once) == once.fields;
    var twice := Merge(once, patch);
    assert twice.fields == once.fields;
  }
}

=== FILE: parsing.dfy ===
/** JavaScript's `parseInt(string)` with no radix argument, as server.js:116
    and server.js:146 apply it to the id segment of the URL. The result is
    `None` where JavaScript gives `NaN`.

    The lemmas about whole texts are staged. A `*Text` lemma takes a text
    apart: nothing is trimmed, which sign it carries, and what its magnitude
    reads as. A `*Reading` lemma then turns exactly those facts into the
    value of `ParseInt`. Each stage's ensures is the next stage's requires,
    so the solver meets the text's structure and the definition of
    `ParseInt` in separate proofs. Concatenations are grouped to the right
    (`sign + (digits + rest)`), which is the same string as
    `sign + digits + rest`. The examples at the end take their text as a
    parameter pinned by `requires s == "..."`, so that the literal is not
    unfolded wherever it occurs in a proof. */
module Parsing {
  import opened Wrappers
  import opened Decimal

  /** The white space and line terminator code points `parseInt` skips at
      the start (tab, vertical tab, form feed, the byte order mark, every
      space separator, line feed, carriage return, line and paragraph separator). */
  predicate IsJsSpace(c: char)
  {
    var n := c as int;
    || n == 0x09 || n == 0x0A || n == 0x0B || n == 0x0C || n == 0x0D
    || n == 0x20 || n == 0xA0 || n == 0x1680
    || (0x2000 <= n <= 0x200A)
    || n == 0x2028 || n == 0x2029 || n == 0x202F || n == 0x205F
    || n == 0x3000 || n == 0xFEFF
  }

  /** `s` without its leading white space. */
  function TrimStart(s: string): (t: string)
    ensures |t| <= |s| && t == s[|s| - |t|..]
    ensures forall i :: 0 <= i < |s| - |t| ==> IsJsSpace(s[i])
    ensures |t| == 0 || !IsJsSpace(t[0])
    decreases |s|
  {
    if |s| > 0 && IsJsSpace(s[0]) then TrimStart(s[1..]) else s
  }

  /** The longest prefix of `s` made of digits of the radix. */
  function DigitPrefix(s: string, radix: nat): (z: string)
    ensures |z| <= |s| && z == s[..|z|]
    ensures AllDigits(z, radix)
    ensures |z| == |s| || DigitVal(s[|z|]) >= radix
    decreases |s|
  {
    if |s| > 0 && DigitVal(s[0]) < radix then [s[0]] + DigitPrefix(s[1..], radix) else []
  }

  /** True when the text opens with a `-`, which negates the value read. */
  predicate Negative(t: string)
  {
    |t| > 0 && t[0] == '-'
  }

  /** The text after a leading `-` or `+`, if there is one. */
  function Unsigned(t: string): string
  {
    if |t| > 0 && (t[0] == '-' || t[0] == '+') then t[1..] else t
  }

  /** True when `u` opens with the `0x` or `0X` prefix that selects radix 16. */
  predicate HexPrefixed(u: string)
  {
    |u| >= 2 && u[0] == '0' && (u[1] == 'x' || u[1] == 'X')
  }

  /** `parseInt(s)`: skip leading white space, take an optional sign, read
      radix 16 after a `0x` prefix and radix 10 otherwise, and convert the
      longest run of digits; trailing text is ignored and an empty run is `NaN`. */
  function ParseInt(s: string): (r: Option<int>)
    ensures r.Some? ==> var u := Unsigned(TrimStart(s)); |u| > 0 && DigitVal(u[0]) < 10
  {
    ParseTrimmed(TrimStart(s))
  }

  /** `parseInt` of text without leading white space: the optional sign, then
      the magnitude. */
  function ParseTrimmed(t: string): Option<int>
  {
    match ParseMagnitude(Unsigned(t))
    case None => None
    case Some(m) => Some(if Negative(t) then -(m as int) else m)
  }

  /** The unsigned part of `parseInt`: the radix chosen by the prefix and the
      value of the digit run that follows. */
  function ParseMagnitude(u: string): Option<nat>
  {
    if HexPrefixed(u) then RunValue(u[2..], 16) else RunValue(u, 10)
  }

  /** The value of the longest run of radix digits at the start of `v`;
      `NaN` when the run is empty. */
  function RunValue(v: string, radix: nat): Option<nat>
  {
    var z := DigitPrefix(v, radix);
    if |z| == 0 then None else Some(DigitsValue(z, radix))
  }

  /** The decimal text JavaScript writes for an integer. */
  function IntToString(n: int): string
  {
    if n < 0 then "-" + NatToString(-n) else NatToString(n)
  }

  /** A digit run followed by text that is not a digit is read up to the run. */
  lemma {:induction false} DigitPrefixOf(p: string, rest: string, radix: nat)
    requires AllDigits(p, radix)
    requires |rest| == 0 || DigitVal(rest[0]) >= radix
    ensures DigitPrefix(p + rest, radix) == p
    decreases |p|
  {
    if |p| == 0 {
      assert p + rest == rest;
    } else {
      assert (p + rest)[0] == p[0];
      assert (p + rest)[1..] == p[1..] + rest;
      DigitPrefixOf(p[1..], rest, radix);
      assert p == [p[0]] + p[1..];
    }
  }

  /** Text that opens with a sign or a digit has no white space to trim. */
  lemma TrimStartSignOrDigit(s: string)
    requires |s| > 0 && (s[0] == '-' || s[0] == '+' || '0' <= s[0] <= '9')
    ensures TrimStart(s) == s
  {
    assert !IsJsSpace(s[0]);
  }

  /** An optional sign in front of text that opens with a decimal digit:
      nothing is trimmed, and the sign is taken off and decides the sign of
      the result. */
  lemma SignedText(sign: string, u: string)
    requires sign == "" || sign == "+" || sign == "-"
    requires |u| > 0 && '0' <= u[0] <= '9'
    ensures TrimStart(sign + u) == sign + u
    ensures Unsigned(sign + u) == u
    ensures Negative(sign + u) <==> sign == "-"
  {
    if sign == "" {
      assert sign + u == u;
      TrimStartSignOrDigit(u);
    } else {
      SignedTextWithSign(sign[0], u);
      assert sign == [sign[0]];
    }
  }

  /** The case of `SignedText` with a sign character in front. */
  lemma SignedTextWithSign(c: char, u: string)
    requires c == '+' || c == '-'
    requires |u| > 0 && '0' <= u[0] <= '9'
    ensures TrimStart([c] + u) == [c] + u
    ensures Unsigned([c] + u) == u
    ensures Negative([c] + u) <==> c == '-'
  {
    var s := [c] + u;
    assert s[0] == c;
    assert s[1..] == u;
    TrimStartSignOrDigit(s);
  }

  /** What `parseInt` makes of text with nothing to trim once its magnitude
      is known. */
  lemma TrimmedReading(t: string, r: Option<nat>)
    requires TrimStart(t) == t
    requires ParseMagnitude(Unsigned(t)) == r
    ensures ParseInt(t) == if r.None? then None else Some(if Negative(t) then -(r.value as int) else r.value)
  {
  }

  /** The magnitude of a decimal digit run that is not a `0x` prefix. */
  lemma MagnitudeDecimal(digits: string, rest: string)
    requires AllDigits(digits, 10)
    requires |rest| == 0 || DigitVal(rest[0]) >= 10
    requires !HexPrefixed(digits + rest)
    ensures ParseMagnitude(digits + rest) == if |digits| == 0 then None else Some(DigitsValue(digits, 10))
  {
    DigitPrefixOf(digits, rest, 10);
  }

  /** The magnitude of a hexadecimal digit run after a `0x` prefix. */
  lemma MagnitudeHex(x: char, digits: string, rest: string)
    requires x == 'x' || x == 'X'
    requires AllDigits(digits, 16)
    requires |rest| == 0 || DigitVal(rest[0]) >= 16
    ensures ParseMagnitude(['0', x] + (digits + rest)) == if |digits| == 0 then None else Some(DigitsValue(digits, 16))
  {
    var v := digits + rest;
    var u := ['0', x] + v;
    assert HexPrefixed(u);
    assert u[2..] == v;
    DigitPrefixOf(digits, rest, 16);
  }

  /** The facts `ParseIntDecimal` is assembled from. */
  lemma DecimalText(sign: string, digits: string, rest: string)
    requires sign == "" || sign == "+" || sign == "-"
    requires |digits| > 0 && AllDigits(digits, 10)
    requires |rest| == 0 || DigitVal(rest[0]) >= 10
    requires !HexPrefixed(digits + rest)
    ensures TrimStart(sign + (digits + rest)) == sign + (digits + rest)
    ensures Negative(sign + (digits + rest)) <==> sign == "-"
    ensures ParseMagnitude(Unsigned(sign + (digits + rest))) == Some(DigitsValue(digits, 10))
  {
    var u := digits + rest;
    assert u[0] == digits[0];
    SignedText(sign, u);
    MagnitudeDecimal(digits, rest);
  }

  /** An optional sign, a run of decimal digits and any text that does not go
      on with a digit are read as the signed decimal value of the run, leading
      zeros included, unless the text opens with the `0x` prefix. */
  lemma ParseIntDecimal(sign: string, digits: string, rest: string)
    requires sign == "" || sign == "+" || sign == "-"
    requires |digits| > 0 && AllDigits(digits, 10)
    requires |rest| == 0 || DigitVal(rest[0]) >= 10
    requires !HexPrefixed(digits + rest)
    ensures ParseInt(sign + (digits + rest)) ==
      Some(if sign == "-" then -(DigitsValue(digits, 10) as int) else DigitsValue(digits, 10))
  {
    DecimalText(sign, digits, rest);
    DecimalReading(sign, digits, rest);
  }

  /** `ParseIntDecimal` once the facts of `DecimalText` are known. */
  lemma DecimalReading(sign: string, digits: string, rest: string)
    requires TrimStart(sign + (digits + rest)) == sign + (digits + rest)
    requires Negative(sign + (digits + rest)) <==> sign == "-"
    requires ParseMagnitude(Unsigned(sign + (digits + rest))) == Some(DigitsValue(digits, 10))
    ensures ParseInt(sign + (digits + rest)) ==
      Some(if sign == "-" then -(DigitsValue(digits, 10) as int) else DigitsValue(digits, 10))
  {
    TrimmedReading(sign + (digits + rest), Some(DigitsValue(digits, 10)));
  }

  /** The facts `ParseIntHex` and `ParseIntEmptyHex` are assembled from. */
  lemma HexText(sign: string, x: char, digits: string, rest: string)
    requires sign == "" || sign == "+" || sign == "-"
    requires x == 'x' || x == 'X'
    requires AllDigits(digits, 16)
    requires |rest| == 0 || DigitVal(rest[0]) >= 16
    ensures TrimStart(sign + (['0', x] + (digits + rest))) == sign + (['0', x] + (digits + rest))
    ensures Negative(sign + (['0', x] + (digits + rest))) <==> sign == "-"
    ensures ParseMagnitude(Unsigned(sign + (['0', x] + (digits + rest)))) ==
      if |digits| == 0 then None else Some(DigitsValue(digits, 16))
  {
    var u := ['0', x] + (digits + rest);
    assert u[0] == '0';
    SignedText(sign, u);
    MagnitudeHex(x, digits, rest);
  }

  /** After an optional sign and a `0x` or `0X` prefix, a run of hexadecimal
      digits and any text that does not go on with one is read as the signed
      hexadecimal value of the run. */
  lemma ParseIntHex(sign: string, x: char, digits: string, rest: string)
    requires sign == "" || sign == "+" || sign == "-"
    requires x == 'x' || x == 'X'
    requires |digits| > 0 && AllDigits(digits, 16)
    requires |rest| == 0 || DigitVal(rest[0]) >= 16
    ensures ParseInt(sign + (['0', x] + (digits + rest))) ==
      Some(if sign == "-" then -(DigitsValue(digits, 16) as int) else DigitsValue(digits, 16))
  {
    HexText(sign, x, digits, rest);
    HexReading(sign, x, digits, rest);
  }

  /** `ParseIntHex` once the facts of `HexText` are known. */
  lemma HexReading(sign: string, x: char, digits: string, rest: string)
    requires TrimStart(sign + (['0', x] + (digits + rest))) == sign + (['0', x] + (digits + rest))
    requires Negative(sign + (['0', x] + (digits + rest))) <==> sign == "-"
    requires ParseMagnitude(Unsigned(sign + (['0', x] + (digits + rest)))) == Some(DigitsValue(digits, 16))
    ensures ParseInt(sign + (['0', x] + (digits + rest))) ==
      Some(if sign == "-" then -(DigitsValue(digits, 16) as int) else DigitsValue(digits, 16))
  {
    TrimmedReading(sign + (['0', x] + (digits + rest)), Some(DigitsValue(digits, 16)));
  }

  /** A `0x` or `0X` prefix, after an optional sign, that no hexadecimal digit
      follows is `NaN`, although its `0` is a decimal digit. */
  lemma ParseIntEmptyHex(sign: string, x: char, rest: string)
    requires sign == "" || sign == "+" || sign == "-"
    requires x == 'x' || x == 'X'
    requires |rest| == 0 || DigitVal(rest[0]) >= 16
    ensures ParseInt(sign + (['0', x] + rest)).None?
  {
    HexText(sign, x, "", rest);
    assert "" + rest == rest;
    TrimmedReading(sign + (['0', x] + rest), None);
  }

  /** `parseInt` reads back the decimal text of any integer, whatever follows
      it, unless what follows is another digit, or `x` after a lone `0`
      (which would make the text a hexadecimal prefix). */
  lemma ParseIntIntToString(n: int, rest: string)
    requires |rest| == 0 || DigitVal(rest[0]) >= 10
    requires n == 0 && |rest| > 0 ==> rest[0] != 'x' && rest[0] != 'X'
    ensures ParseInt(IntToString(n) + rest) == Some(n)
  {
    var m: nat := if n < 0 then -n else n;
    var sign := if n < 0 then "-" else "";
    RenderedNotHex(m, rest);
    NatToStringValue(m);
    RenderedText(n, m, sign, rest);
    RenderedReading(sign, m, rest);
  }

  /** The text of an integer is its sign followed by its magnitude's digits. */
  lemma RenderedText(n: int, m: nat, sign: string, rest: string)
    requires m == if n < 0 then -n else n
    requires sign == if n < 0 then "-" else ""
    ensures IntToString(n) + rest == sign + (NatToString(m) + rest)
  {
    assert IntToString(n) == sign + NatToString(m);
  }

  /** `ParseIntDecimal` for a rendered natural whose value is known. */
  lemma RenderedReading(sign: string, m: nat, rest: string)
    requires sign == "" || sign == "-"
    requires |rest| == 0 || DigitVal(rest[0]) >= 10
    requires !HexPrefixed(NatToString(m) + rest)
    requires DigitsValue(NatToString(m), 10) == m
    ensures ParseInt(sign + (NatToString(m) + rest)) == Some(if sign == "-" then -(m as int) else m)
  {
    ParseIntDecimal(sign, NatToString(m), rest);
  }

  /** The decimal text of a natural, followed by text that is not `x` when
      the natural is 0, never opens with the `0x` prefix. */
  lemma RenderedNotHex(m: nat, rest: string)
    requires m == 0 && |rest| > 0 ==> rest[0] != 'x' && rest[0] != 'X'
    ensures !HexPrefixed(NatToString(m) + rest)
  {
    var digits := NatToString(m);
    assert (digits + rest)[0] == digits[0];
    if m == 0 && |rest| > 0 {
      assert (digits + rest)[1] == rest[0];
    } else if m >= 10 {
      assert (digits + rest)[1] == digits[1];
    }
  }

  /** Leading white space does not change what `parseInt` reads. */
  lemma {:induction false} ParseIntSkipsSpace(ws: string, s: string)
    requires forall i :: 0 <= i < |ws| ==> IsJsSpace(ws[i])
    ensures ParseInt(ws + s) == ParseInt(s)
    decreases |ws|
  {
    if |ws| > 0 {
      assert (ws + s)[1..] == ws[1..] + s;
      ParseIntSkipsSpace(ws[1..], s);
      assert TrimStart(ws + s) == TrimStart(ws[1..] + s);
    } else {
      assert ws + s == s;
    }
  }

  /** Text that does not start, after white space and a sign, with a decimal
      digit is `NaN`; so are the empty string and a bare `0x`. */
  lemma ParseIntNaN(s: string)
    requires var u := Unsigned(TrimStart(s)); |u| == 0 || DigitVal(u[0]) >= 10
    ensures ParseInt(s).None?
  {
  }

  /** Trailing text after the digits is ignored: `"12abc"` is 12. */
  lemma ParseIntTrailingExample(s: string)
    requires s == "12abc"
    ensures ParseInt(s) == Some(12)
  {
    assert IntToString(12) + "abc" == s by {
      assert NatToString(12) == "12";
    }
    ParseIntIntToString(12, "abc");
  }

  /** A sign is read before the digits: `"-7"` is -7. */
  lemma ParseIntNegativeExample(s: string)
    requires s == "-7"
    ensures ParseInt(s) == Some(-7)
  {
    assert IntToString(-7) + "" == s by {
      assert NatToString(7) == "7";
    }
    ParseIntIntToString(-7, "");
  }

  /** A `0x` prefix reads the digits that follow in hexadecimal: `"0x1F"` is 31. */
  lemma ParseIntHexExample(s: string)
    requires s == "0x1F"
    ensures ParseInt(s) == Some(31)
  {
    HexDigitsOneF();
    ParseIntHex("", 'x', "1F", "");
    assert "" + (['0', 'x'] + ("1F" + "")) == s;
  }

  /** The hexadecimal digits `1F` are 31. */
  lemma HexDigitsOneF()
    ensures AllDigits("1F", 16) && DigitsValue("1F", 16) == 31
  {
    assert "1F"[..1] == "1";
    assert "1"[..0] == "";
  }

  /** A `0x` prefix with no hexadecimal digit after it is `NaN`: so is `"0x"`. */
  lemma ParseIntBareHexExample(s: string)
    requires s == "0x"
    ensures ParseInt(s) == None
  {
    ParseIntEmptyHex("", 'x', "");
    assert "" + (['0', 'x'] + "") == s;
  }
}

=== FILE: routing.dfy ===
/** The route decision of the request handler (server.js:66-163): which of
    the four endpoints a method and URL select, and the id a PUT or DELETE
    URL carries. */
module Routing {
  import opened Wrappers
  import opened Parsing
  import Decimal

  /** The one collection URL: GET and POST must match it exactly. */
  const CollectionPath: string := "/resource"

  /** The item URL prefix: PUT and DELETE accept any URL that starts with it. */
  const ItemPrefix: string := "/resource/"

  /** The endpoint a request selects. */
  datatype Route =
    | ListAll
    | CreateOne
    | UpdateOne(id: Option<int>)
    | DeleteOne(id: Option<int>)
    | Unmatched

  /** `parts` joined with `sep` between neighbours. */
  function Join(parts: seq<string>, sep: char): string
    decreases |parts|
  {
    if |parts| == 0 then ""
    else if |parts| == 1 then parts[0]
    else parts[0] + [sep] + Join(parts[1..], sep)
  }

  /** `s.split(sep)` for a one-character separator: the pieces between
      separators, including empty ones at either end. */
  function Split(s: string, sep: char): (parts: seq<string>)
    ensures |parts| >= 1
    ensures forall i :: 0 <= i < |parts| ==> sep !in parts[i]
    decreases |s|
  {
    if |s| == 0 then [""]
    else if s[0] == sep then [""] + Split(s[1..], sep)
    else
      var rest := Split(s[1..], sep);
      [[s[0]] + rest[0]] + rest[1..]
  }

  /** Joining the pieces of a split gives back the split string. */
  lemma {:induction false} JoinSplit(s: string, sep: char)
    ensures Join(Split(s, sep), sep) == s
    decreases |s|
  {
    if |s| > 0 {
      JoinSplit(s[1..], sep);
      var rest := Split(s[1..], sep);
      if s[0] == sep {
        assert s == [sep] + s[1..];
      } else {
        var parts := Split(s, sep);
        assert parts[1..] == rest[1..];
        if |rest| == 1 {
          assert s == [s[0]] + s[1..];
        } else {
          assert Join(rest, sep) == rest[0] + [sep] + Join(rest[1..], sep);
          assert s == [s[0]] + s[1..];
        }
      }
    }
  }

  /** A string without the separator splits into itself alone. */
  lemma {:induction false} SplitWithoutSep(p: string, sep: char)
    requires sep !in p
    ensures Split(p, sep) == [p]
    decreases |p|
  {
    if |p| > 0 {
      SplitWithoutSep(p[1..], sep);
      assert p == [p[0]] + p[1..];
    }
  }

  /** A separator-free piece followed by the separator splits off as the
      first piece. */
  lemma {:induction false} SplitAfterPiece(p: string, sep: char, t: string)
    requires sep !in p
    ensures Split(p + [sep] + t, sep) == [p] + Split(t, sep)
    decreases |p|
  {
    var s := p + [sep] + t;
    if |p| == 0 {
      assert s == [sep] + t;
      assert s[1..] == t;
    } else {
      assert s[0] == p[0];
      assert s[1..] == p[1..] + [sep] + t;
      SplitAfterPiece(p[1..], sep, t);
      assert p == [p[0]] + p[1..];
    }
  }

  /** Splitting the join of separator-free pieces gives back the pieces. */
  lemma {:induction false} SplitJoin(parts: seq<string>, sep: char)
    requires |parts| >= 1
    requires forall i :: 0 <= i < |parts| ==> sep !in parts[i]
    ensures Split(Join(parts, sep), sep) == parts
    decreases |parts|
  {
    if |parts| == 1 {
      SplitWithoutSep(parts[0], sep);
    } else {
      SplitJoin(parts[1..], sep);
      SplitAfterPiece(parts[0], sep, Join(parts[1..], sep));
      assert parts == [parts[0]] + parts[1..];
    }
  }

  /** `parseInt(req.url.split('/')[2])` (server.js:116, 146): the id is read
      from the third `/`-separated piece; a URL with fewer pieces gives
      `parseInt(undefined)`, which is `NaN`. */
  function IdOf(url: string): Option<int>
  {
    var parts := Split(url, '/');
    if |parts| > 2 then ParseInt(parts[2]) else None
  }

  /** The `switch (req.method)` with its URL tests. */
  function RouteOf(verb: string, url: string): (r: Route)
    ensures r.ListAll? <==> verb == "GET" && url == CollectionPath
    ensures r.CreateOne? <==> verb == "POST" && url == CollectionPath
    ensures r.UpdateOne? <==> verb == "PUT" && ItemPrefix <= url
    ensures r.DeleteOne? <==> verb == "DELETE" && ItemPrefix <= url
    ensures r.UpdateOne? || r.DeleteOne? ==> r.id == IdOf(url)
  {
    if verb == "GET" then (if url == CollectionPath then ListAll else Unmatched)
    else if verb == "POST" then (if url == CollectionPath then CreateOne else Unmatched)
    else if verb == "PUT" then (if ItemPrefix <= url then UpdateOne(IdOf(url)) else Unmatched)
    else if verb == "DELETE" then (if ItemPrefix <= url then DeleteOne(IdOf(url)) else Unmatched)
    else Unmatched
  }

  /** Every other method, and every other URL for the four methods, selects
      no endpoint. */
  lemma UnmatchedExactly(verb: string, url: string)
    ensures RouteOf(verb, url).Unmatched? <==>
      !((verb == "GET" || verb == "POST") && url == CollectionPath) &&
      !((verb == "PUT" || verb == "DELETE") && ItemPrefix <= url)
  {
  }

  /** An item URL is read up to the next `/`: the id is `parseInt` of the
      piece right after the prefix, whatever comes after that piece. */
  lemma IdOfItemUrl(piece: string, tail: string)
    requires '/' !in piece
    requires |tail| == 0 || tail[0] == '/'
    ensures IdOf(ItemPrefix + piece + tail) == ParseInt(piece)
  {
    var url := ItemPrefix + piece + tail;
    assert url == "" + ['/'] + ("resource" + ['/'] + (piece + tail));
    SplitAfterPiece("", '/', "resource" + ['/'] + (piece + tail));
    SplitAfterPiece("resource", '/', piece + tail);
    if |tail| == 0 {
      assert piece + tail == piece;
      SplitWithoutSep(piece, '/');
    } else {
      assert piece + tail == piece + ['/'] + tail[1..];
      SplitAfterPiece(piece, '/', tail[1..]);
    }
  }

  /** The item URL of an integer carries that integer as its id. */
  lemma IdOfIntegerUrl(n: int)
    ensures IdOf(ItemPrefix + IntToString(n)) == Some(n)
  {
    assert '/' !in IntToString(n) by {
      if n < 0 {
        assert IntToString(n) == ['-'] + Decimal.NatToString(-n);
      }
    }
    IdOfItemUrl(IntToString(n), "");
    assert ItemPrefix + IntToString(n) + "" == ItemPrefix + IntToString(n);
    ParseIntIntToString(n, "");
    assert IntToString(n) + "" == IntToString(n);
  }
}

=== FILE: scenarios.dfy ===
/** Concrete request sequences the service is expected to handle, checked
    against the dispatcher.

    A lemma about a fixed URL takes it as a parameter pinned by a
    `requires url == "..."` rather than as a literal in its ensures. The
    proof then works with one variable instead of unfolding the literal
    character by character wherever it occurs. */
module Scenarios {
  import opened Wrappers
  import opened Json
  import opened Store
  import opened Routing
  import opened Dispatcher
  import Collection
  import Parsing
  import Decimal

  /** `{ id: n }` plus the given fields. */
  function Record(n: int, fields: map<string, Value>): Value
  {
    Obj(fields["id" := Number(n as real)])
  }

  /** `/resource/1` carries the id 1. */
  lemma IdOfResourceOne(url: string)
    requires url == "/resource/1"
    ensures IdOf(url) == Some(1)
  {
    IdOfIntegerUrl(1);
    assert ItemPrefix + Parsing.IntToString(1) == url;
  }

  /** `/resource/999` carries the id 999. */
  lemma IdOfResource999(url: string)
    requires url == "/resource/999"
    ensures IdOf(url) == Some(999)
  {
    IdOfIntegerUrl(999);
    RenderNineNineNine();
    assert ItemPrefix + Parsing.IntToString(999) == url;
  }

  /** The decimal text of 999, digit by digit. */
  lemma RenderNineNineNine()
    ensures Decimal.NatToString(999) == "999"
  {
    assert Decimal.NatToString(9) == "9";
    assert Decimal.NatToString(99) == "99";
  }

  /** Updating `{id:1, name:"a", x:1}` with `{name:"b"}` stores
      `{id:1, name:"b", x:1}`: the unmentioned field is kept. */
  lemma MergeScenario(url: string, patch: Value, before: Storage)
    requires url == "/resource/1"
    requires patch == Obj(map["name" := Str("b")])
    requires before == Storage(Some(Arr([Record(1, map["name" := Str("a"), "x" := Number(1.0)])])), true)
    ensures Dispatch("PUT", url, Some(patch), before) ==
      Exchange(Updated, before.(file := Some(Arr([Record(1, map["name" := Str("b"), "x" := Number(1.0)])]))))
  {
    var stored := Items(before)[0];
    assert IdOf(url) == Some(1) by {
      IdOfResourceOne(url);
    }
    assert Collection.FirstMatch(Items(before), Some(1), 0);
    PutMergesFirstMatch(url, patch, before, 0);
    MergeScenarioRecord();
    assert Items(before)[0 := Merge(stored, patch)] == [Record(1, map["name" := Str("b"), "x" := Number(1.0)])];
  }

  /** The merged record of the update scenario. */
  lemma MergeScenarioRecord()
    ensures Merge(Record(1, map["name" := Str("a"), "x" := Number(1.0)]), Obj(map["name" := Str("b")]))
         == Record(1, map["name" := Str("b"), "x" := Number(1.0)])
  {
    MergeObjects(map["name" := Str("a"), "x" := Number(1.0), "id" := Number(1.0)], map["name" := Str("b")]);
  }

  /** Deleting id 1 from `[{id:1}, {id:1}, {id:2}]` removes both duplicates. */
  lemma DeleteDuplicatesScenario(url: string, before: Storage)
    requires url == "/resource/1"
    requires before == Storage(Some(Arr([Record(1, map[]), Record(1, map[]), Record(2, map[])])), true)
    ensures Dispatch("DELETE", url, None, before) == Exchange(Deleted, before.(file := Some(Arr([Record(2, map[])]))))
  {
    var data := Items(before);
    assert IdOf(url) == Some(1) by {
      IdOfResourceOne(url);
    }
    assert Collection.RemoveAll(data, Some(1)) == [Record(2, map[])] by {
      RemoveDuplicates();
    }
    assert forall k :: 0 <= k < |data| ==> !Collection.Faults(data[k]);
    DeleteRemovesEveryMatch(url, None, before);
  }

  /** The filtering step of the duplicate scenario. */
  lemma RemoveDuplicates()
    ensures Collection.RemoveAll([Record(1, map[]), Record(1, map[]), Record(2, map[])], Some(1)) == [Record(2, map[])]
  {
    var data := [Record(1, map[]), Record(1, map[]), Record(2, map[])];
    var kept := [Record(2, map[])];
    assert Collection.RemoveAll(kept, Some(1)) == kept by {
      assert kept[1..] == [];
    }
    assert Collection.RemoveAll(data[1..], Some(1)) == kept by {
      assert data[1..][1..] == kept;
    }
  }

  /** An update of an id no record carries leaves the storage unchanged. */
  lemma MissingIdScenario(url: string, patch: Value, before: Storage)
    requires url == "/resource/999"
    requires before == Storage(Some(Arr([Record(1, map["name" := Str("a")])])), true)
    ensures Dispatch("PUT", url, Some(patch), before) == Exchange(Updated, before)
  {
    assert IdOf(url) == Some(999) by {
      IdOfResource999(url);
    }
    PutWithoutMatchKeepsStore(url, patch, before);
  }

  /** A POST whose body is not JSON is answered 400 and stores nothing. */
  lemma MalformedPostScenario(st: Storage)
    ensures Dispatch("POST", "/resource", None, st) == Exchange(InvalidJson, st)
  {
  }

  /** `PATCH /resource` is not an endpoint. */
  lemma UnknownMethodScenario(body: Option<Value>, st: Storage)
    ensures Dispatch("PATCH", "/resource", body, st) == Exchange(NotFound, st)
  {
  }
}

=== FILE: store.dfy ===
/** `resourceHandler` (server.js:8-58): each operation reads the whole
    document, changes it and writes the whole document back. The data file is
    abstracted to `Storage`: the document a read would parse, or nothing when
    the file is missing, unreadable or not valid JSON, and whether a write
    would succeed. */
module Store {
  import opened Wrappers
  import opened Json
  import Collection

  /** The data file as the store sees it. */
  datatype Storage = Storage(file: Option<Value>, writable: bool)

  /** Why a store operation rejected: the read threw, the write threw, or a
      `TypeError` (the document is not an array, or `.id` was read on null). */
  datatype StoreError = ReadFailed | WriteFailed | TypeError

  /** The document holds an array, so `push`, `findIndex` and `filter` exist on it. */
  predicate HoldsArray(st: Storage)
  {
    st.file.Some? && st.file.value.Arr?
  }

  /** The records of a document that holds an array. */
  function Items(st: Storage): seq<Value>
    requires HoldsArray(st)
  {
    st.file.value.items
  }

  /** `read` (server.js:10-18): the parsed document, whatever JSON it is. */
  function Read(st: Storage): (r: Result<Value, StoreError>)
    ensures r.Success? <==> st.file.Some?
    ensures r.Success? ==> r.value == st.file.value
    ensures r.Failure? ==> r.error == ReadFailed
  {
    match st.file
    case Some(doc) => Success(doc)
    case None => Failure(ReadFailed)
  }

  /** The array a mutation works on: a read failure, or a `TypeError` when
      the document is not an array. */
  function Load(st: Storage): (r: Result<seq<Value>, StoreError>)
    ensures r.Success? <==> HoldsArray(st)
    ensures r.Success? ==> r.value == Items(st)
    ensures r.Failure? ==> r.error == if st.file.None? then ReadFailed else TypeError
  {
    match Read(st)
    case Failure(e) => Failure(e)
    case Success(doc) => if doc.Arr? then Success(doc.items) else Failure(TypeError)
  }

  /** `writeFile` of the whole collection: it replaces the document, or throws
      and leaves it as it was. */
  function Save(st: Storage, data: seq<Value>): (r: Result<Storage, StoreError>)
    ensures r.Success? <==> st.writable
    ensures r.Success? ==> r.value.file == Some(Arr(data)) && r.value.writable
  {
    if st.writable then Success(st.(file := Some(Arr(data)))) else Failure(WriteFailed)
  }

  /** Carry out a collection step: a throw becomes a `TypeError`, a decision
      not to write keeps the storage, a write is saved. */
  function Commit(st: Storage, step: Collection.Step): (r: Result<Storage, StoreError>)
    ensures r.Success? <==> step.Kept? || (step.Wrote? && st.writable)
    ensures r.Success? ==> r.value.writable == st.writable
    ensures r.Success? && r.value != st ==> step.Wrote? && r.value.file == Some(Arr(step.data))
    ensures r.Failure? ==> r.error == if step.Threw? then TypeError else WriteFailed
  {
    match step
    case Threw => Failure(TypeError)
    case Kept => Success(st)
    case Wrote(data) => Save(st, data)
  }

  /** `create` (server.js:21-30): append the record, with no check of its
      shape or of `id` uniqueness, and write the collection back. */
  function Create(st: Storage, record: Value): (r: Result<Storage, StoreError>)
    ensures r.Success? <==> HoldsArray(st) && st.writable
    ensures r.Success? ==> r.value.file == Some(Arr(Items(st) + [record])) && r.value.writable
  {
    match Load(st)
    case Failure(e) => Failure(e)
    case Success(data) => Save(st, Collection.Append(data, record))
  }

  /** `update` (server.js:33-45): merge the patch into the first record with
      the id and write back; with no such record, succeed without writing. */
  function Update(st: Storage, id: Option<int>, patch: Value): (r: Result<Storage, StoreError>)
    ensures HoldsArray(st) && Collection.Passes(Items(st), id, 0, |Items(st)|) ==> r == Success(st)
    ensures forall i ::
              HoldsArray(st) && Collection.FirstMatch(Items(st), id, i)
              ==> r == Save(st, Items(st)[i := Merge(Items(st)[i], patch)])
    ensures forall i ::
              HoldsArray(st) && 0 <= i < |Items(st)| && Collection.Faults(Items(st)[i]) && Collection.Passes(Items(st), id, 0, i)
              ==> r == Failure(TypeError)
    ensures !HoldsArray(st) ==> r.Failure?
    ensures r.Success? ==> r.value.writable == st.writable
    ensures r.Success? && r.value != st ==> HoldsArray(st) && exists i :: Collection.FirstMatch(Items(st), id, i)
  {
    match Load(st)
    case Failure(e) => Failure(e)
    case Success(data) =>
      Collection.UpdateChangesOnlyFirstMatchAt(data, id, patch);
      Collection.UpdateThrows(data, id, patch);
      Commit(st, Collection.Update(data, id, patch))
  }

  /** `delete` (server.js:48-57): write back the records without the id. */
  function Delete(st: Storage, id: Option<int>): (r: Result<Storage, StoreError>)
    ensures r.Success? <==> HoldsArray(st) && st.writable && forall k :: 0 <= k < |Items(st)| ==> !Collection.Faults(Items(st)[k])
    ensures r.Success? ==> r.value.file == Some(Arr(Collection.RemoveAll(Items(st), id))) && r.value.writable
  {
    match Load(st)
    case Failure(e) => Failure(e)
    case Success(data) => Commit(st, Collection.Delete(data, id))
  }

  /** A delete that succeeded can be repeated: the second one succeeds and
      leaves the storage as the first left it. */
  lemma DeleteIdempotent(st: Storage, id: Option<int>)
    requires Delete(st, id).Success?
    ensures Delete(Delete(st, id).value, id) == Delete(st, id)
  {
    Collection.DeleteIdempotent(Items(st), id);
  }

  /** On an array without null records, an update whose id no record
      carries succeeds without writing, even when the storage could not be
      written. */
  lemma UpdateAbsentIsNoop(st: Storage, id: Option<int>, patch: Value)
    requires HoldsArray(st)
    requires forall k :: 0 <= k < |Items(st)| ==> !Collection.Faults(Items(st)[k]) && !Collection.Matches(Items(st)[k], id)
    ensures Update(st, id, patch) == Success(st)
  {
  }
}

=== FILE: wrappers.dfy ===
/** Failure-carrying wrappers shared by the whole model. */
module Wrappers {

  /** A value that may be absent. `None` also stands for JavaScript's `NaN`
      where a number could not be parsed. */
  datatype Option<+T> = None | Some(value: T)

  /** The outcome of an operation that may throw: a value or the error it threw. */
  datatype Result<+R, +E> = Success(value: R) | Failure(error: E)
}
